=== FILE: README.md ===
# To-do task core, modelled in Dafny

This project models the task-management core of the console to-do application
in `Project/project.py`:

- the `Task` record and `mark_completed`;
- the priority scorer `calculate_priority`;
- the `ToDoList` registry: add, first-match edit, delete-all-matches, filtered
  view, and marking the first task with an id as completed;
- the statistics (`get_statistics` and the counting half of `plot_statistics`);
- the field coercions of the CSV import and export.

Everything is a pure function on immutable values. The registry is a
`seq<Task>`. Each operation returns the new sequence.

Modules:

- `Tasks` (tasks.dfy): the entity and its clock units.
- `Priority` (priority.dfy): the scorer.
- `Registry` (registry.dfy): the task list.
- `Statistics` (statistics.dfy): the counts.
- `Csv` (csv.dfy): cells, rows and whole-file import.
- `Seqs` (seqs.dfy): the order-preserving filter and the counter that the
  registry and the statistics share.
- `Options` (options.dfy): the `Option` type.

Time is passed in rather than read from a clock:

- A deadline is the already-parsed `YYYY-MM-DD HH:MM` string, as a count of
  minutes.
- `now` is a count of microseconds, the resolution of `datetime.now()`, on the
  same clock.
- `(deadline - now).days` is therefore the floor of
  `(deadline * 60 000 000 - now) / 86 400 000 000`. Python's `timedelta.days`
  rounds toward minus infinity, and so does Dafny's `/` with a positive divisor.
  `DaysToDeadline` states that floor property directly.

A task id is `IntId(n)` or `TextId(s)`:

- Tasks created from the menu carry a Python `int`.
- Tasks read from a CSV file carry the `str` cell unchanged.
- The JSON store saves and reloads whichever kind a task holds. A task imported
  from CSV is appended to the list (line 172) and saved after every step
  (lines 188 and 50), so it reloads (line 45) still carrying a `str` id.
- Python's `==` never equates the two kinds, and neither does the model (see
  Findings).

Two behaviours one might expect otherwise; the model follows the code:

- The deadline term is not capped at 40. An overdue task gains one point per
  whole day overdue (`ScoreGrowsWhenOverdue`).
- A CSV round trip does not restore the id.

## Model

| member | source | states |
|---|---|---|
| Tasks.MarkCompleted | Project/project.py:96-97 | the result is completed; id, title, description, deadline, estimated time and importance are unchanged |
| Tasks.MarkCompletedIdempotent | Project/project.py:96-97 | marking twice equals marking once; marking an already completed task changes nothing |
| Priority.DaysToDeadline | Project/project.py:34 | whole days to the deadline are the floor of the microsecond difference: `d` days fit within the gap and `d + 1` days do not |
| Priority.DaysMonotone | Project/project.py:34 | a later deadline never has fewer whole days to go |
| Priority.Score | Project/project.py:25-39 | the score is at least 10; at least 50 for "high"; at least 30 for "medium"; at most 100 when the deadline is not past; at most 60 when it is 40 or more days away; at least 51 when it is past |
| Priority.ScoreMonotoneInDeadline | Project/project.py:34-35 | moving the deadline later, all else fixed, never raises the score |
| Priority.ScoreFlatBeyondFortyDays | Project/project.py:35 | once the deadline is 40 or more whole days away, moving it later leaves the score unchanged (the term is 0) |
| Priority.ScoreGrowsWhenOverdue | Project/project.py:34-35 | a task overdue by k whole days scores exactly k more than the same task due now (no cap at 40) |
| Priority.ScoreStepPerDay | Project/project.py:34-35 | moving the deadline one day earlier lowers the whole-day count by exactly one and raises the score by exactly one while the deadline is at most 40 days away, and by nothing beyond |
| Priority.ScoreDueNowVersusSixtyDays | Project/project.py:34-35 | a task due exactly now scores 40 more than the same task due 60 days later |
| Priority.ScoreHighQuickDueToday | Project/project.py:25-39 | a "high" task estimated at 1 hour and due within the next 24 hours scores 100 |
| Priority.ScoreByImportance | Project/project.py:27-32 | "high" adds 20 over "medium", and "medium" adds 20 over "low"; every unrecognised importance scores like "low" |
| Priority.ScoreQuickBonus | Project/project.py:37-38 | under 2 hours earns exactly 10 more than 2 hours or more; the bonus depends only on that threshold |
| Seqs.Filter | Project/project.py:113 | the result holds exactly the elements that pass the test; it is no longer than the input; when every element passes it is the input |
| Seqs.FilterAppend | Project/project.py:113 | filtering a concatenation is the concatenation of the filtered parts |
| Seqs.FilterIsSubsequence | Project/project.py:113 | the filtered elements keep their relative order |
| Seqs.Count | Project/project.py:121 | the count is at most the length; it is 0 exactly when no element matches; it equals the length exactly when all match |
| Seqs.CountPartition | Project/project.py:73 | when each element satisfies exactly one of three tests, the three counts sum to the length |
| Seqs.CountUpdate | Project/project.py:164 | replacing one element changes a count only by that element's own contribution |
| Registry.Add | Project/project.py:103-104 | the old list is a prefix of the result, and the new task is its last element |
| Registry.FirstIndex | Project/project.py:107-108 | None exactly when no task has the id; otherwise the position of a task with the id, before which no task has it |
| Registry.Edit | Project/project.py:106-110 | the length is unchanged; only the first task with the id is replaced, in place; the list is unchanged when no task has the id |
| Registry.EditKeepsIds | Project/project.py:106-110 | a replacement carrying the looked-up id keeps every position's id, and at most one position changes |
| Registry.Delete | Project/project.py:112-113 | no survivor has the id; every task without the id survives; the list is unchanged when nothing matches |
| Registry.DeleteKeepsOrder | Project/project.py:112-113 | survivors keep their relative order; deletion distributes over concatenation; the length drops by exactly the number of matching tasks |
| Registry.DeleteAfterAdd | Project/project.py:103-113 | deleting is idempotent; deleting the id of a just-added task gives the same list as deleting before the add |
| Registry.View | Project/project.py:115-118 | a filter of None or "" returns the whole list; otherwise the result is exactly the tasks whose importance equals the filter; either way it is an ordered subsequence |
| Registry.ViewAppend | Project/project.py:115-118 | the view of a concatenation is the concatenation of the views |
| Registry.MarkCompletedById | Project/project.py:161-165 | the length is unchanged; only the first task with the id becomes completed; the list is unchanged when no task has the id |
| Registry.MarkCompletedByIdIsEdit | Project/project.py:161-165 | marking by id equals editing that id with the marked copy of the first match |
| Statistics.GetStatistics | Project/project.py:120-127 | the total is the length; completed plus overdue never exceeds the total; completed is 0 exactly when no task is done; overdue is 0 exactly when no task is overdue |
| Statistics.PlotCounts | Project/project.py:69-73 | pending is never negative; it equals the number of incomplete tasks that are not yet due; the three slices sum to the number of tasks; the counts agree with get_statistics |
| Statistics.StatisticsAfterAdd | Project/project.py:120-127 | an add raises the total by one, raises completed by one if the task is done, and raises overdue by one if it is overdue |
| Statistics.StatisticsAfterMarkCompleted | Project/project.py:161-165 | marking by id raises completed by one exactly when the first match was open; overdue drops by one exactly when that match was overdue; otherwise nothing changes |
| Statistics.StatisticsAfterDelete | Project/project.py:120-127 | a delete lowers the total by the number of matching tasks and never raises completed or overdue |
| Csv.ParseBool | Project/project.py:58 | a cell reads as true exactly when it spells "true" in any letter case |
| Csv.BoolCell | Project/project.py:66 | `str(b)` of the flag: a cell starting with "T" or "F" that the reader maps back to b |
| Csv.BoolRoundTrip | Project/project.py:58-66 | writing True/False and reading the cell back returns the same bool |
| Csv.NatToString | Project/project.py:66 | a non-negative integer is written as at least one digit, with no leading zero |
| Csv.ParseInt | Project/project.py:57 | a cell parses exactly when it is an optional sign followed by one or more digits; an unsigned cell reads as its decimal digit value, a "+" cell as the value of its digits, a "-" cell as the negated value |
| Csv.ParseIntSignsAndZeros | Project/project.py:57 | for every digit string, a leading "0" leaves the value unchanged, a "+" prefix leaves it unchanged, and a "-" prefix negates it (decimal, never octal) |
| Csv.LeadingZeroValue | Project/project.py:57 | a leading zero never changes the decimal value of a digit string |
| Csv.IntToString | Project/project.py:66 | `str(n)`: a minus sign exactly when n is negative, then digits with no leading zero, so zero is the single digit "0"; `Csv.IntRoundTrip` reads it back as n |
| Csv.IntRoundTrip | Project/project.py:57-66 | writing any integer in decimal and parsing it back returns the same integer |
| Csv.ExportRow | Project/project.py:62-66 | the estimated-time cell parses back to the task's estimate; the completed cell to its flag; an integer id's cell to the id; a text id and the text columns are copied |
| Csv.ExportRows | Project/project.py:62-66 | one row per task, in list order |
| Csv.ImportRowAsWritten | Project/project.py:56-59 | a row imports exactly when its estimated-time cell is numeric; the task's id is the id cell as text; the estimate is the parsed cell, the flag the parsed completed cell, and title, description, deadline and importance are copied |
| Csv.ImportRow | Project/project.py:56-59 | a row imports exactly when its id and estimated-time cells are numeric; the id is the parsed integer, the estimate the parsed cell, the flag the parsed completed cell, and title, description, deadline and importance are copied |
| Csv.ImportHandEditedRow | Project/project.py:57-58 | hand-edited cells: "007" and "+5" parse as 7 and 5, "TRUE" and "tRuE" read as true, "yes" as false, and a "2.5" estimate rejects the row |
| Csv.ImportAll | Project/project.py:52-60 | a header-only file gives no tasks; any bad row rejects the whole file; otherwise one task per row, in file order |
| Csv.ImportTasksAsWritten | Project/project.py:52-60 | as written: a header-only file gives no tasks; the file is rejected exactly when some estimated-time cell is not numeric; otherwise one task per row, in file order, each carrying its id cell as text |
| Csv.ImportTasks | Project/project.py:52-60 | with the id coerced: a header-only file gives no tasks; the file is rejected exactly when some id or estimated-time cell is not numeric; otherwise one task per row, in file order |
| Csv.CsvRoundTrip | Project/project.py:52-66 | with the id coerced, exporting tasks with integer ids and importing them gives back the same tasks, field for field, in order |
| Csv.CsvImportLosesIntegerIds | Project/project.py:56-59 | as written, a re-imported task differs from the original only in its id, which becomes text; deleting the original integer id leaves it in place |
| Csv.CsvImportIdExample | Project/project.py:56-59 | task 1, exported and re-imported as written, carries id "1", and deleting id 1 leaves it in place |

## Left out

- The JSON store (`load_tasks_from_file`, `save_tasks_to_file`, lines 41-50) is not modelled. Its behaviour lies in `json`, `os.path.exists` and `__dict__` reflection. The "missing file gives an empty list" branch is not modelled either.
- File handling for CSV is not modelled: opening the file, the header line, quoting and escaping in `csv.DictReader`/`DictWriter`. A `Row` always has all seven columns, so the errors for a missing or extra column are not modelled.
- `datetime.strptime` is not modelled. Deadlines enter already parsed, so the error for an unparseable deadline does not arise.
- `datetime.now()` becomes the parameter `now`. In the source, each comprehension reads the clock again for every task; the model uses one instant for the whole call.
- The pie chart (lines 75-83) is not modelled; only its three counts are.
- The menu loop and the save after every step (lines 129-191) are not modelled. This includes the `len(tasks) + 1` id assignment and appending imported tasks with `extend`. The exception is the mark-completed scan (lines 161-165), which `Registry.MarkCompletedById` models.
- `Learning_platform/Main.py` is not modelled. It is web scaffolding with empty handlers.
- Csv.ParseInt: accepts only an optional ASCII sign followed by ASCII digits. Python's `int` also accepts surrounding whitespace, underscores between digits and non-ASCII decimal digits, so the model rejects some cells the source accepts. In the other direction, from Python 3.11 `int` and `str` raise `ValueError` for numbers of more than 4300 digits, and the model accepts such cells and numbers.
- Csv.ParseBool: lower-cases ASCII letters only. No non-ASCII character lower-cases to a letter of "true", so the result is the same.
- Tasks.Task: fixes field types (integer estimate, string importance, boolean flag). Python objects built from a hand-edited JSON file could hold other types.

## Findings

| source | as written | input that shows it | evidently intended | confidence | as-written member | corrected member |
|---|---|---|---|---|---|---|
| Project/project.py:56-59 | `import_tasks_from_csv` coerces `estimated_time` and `completed` but leaves `id` as the cell's text | export a task with id 1, then import the file: the task comes back with id "1", and `delete_task(1)`, `edit_task(1, …)` and the mark-completed scan never match it, because 1 != "1"; the list is saved to the JSON store after every step (lines 172, 188, 50) and reloaded as is (line 45), so the text id persists across runs | coerce the id with `int(row["id"])` like the estimate, so the CSV round trip restores the id | high, not executed | Csv.CsvImportLosesIntegerIds | Csv.CsvRoundTrip |

=== FILE: csv.dfy ===
/** The field-level coercions of the CSV interchange path in Project/project.py
    (`export_tasks_to_csv` / `import_tasks_from_csv`). A row is the dictionary
    `csv.DictReader` yields for one line: one text cell per column of the fixed
    header `id,title,description,deadline,estimated_time,importance,completed`.
    Quoting, the file itself and the header line are not modelled; the deadline
    cell is copied verbatim in both directions, so it is carried as the
    already-parsed deadline. */
module Csv {
  import opened Options
  import opened Tasks
  import Registry

  // ---------------------------------------------------------------------------
  // The `completed` cell

  /** Python `str.lower` restricted to ASCII. No other character lower-cases
      into one of the letters of "true", so `lower() == "true"` is unaffected. */
  function LowerChar(c: char): char
  {
    if 'A' <= c <= 'Z' then (c as int + 32) as char else c
  }

  function Lower(s: string): string
  {
    seq(|s|, i requires 0 <= i < |s| => LowerChar(s[i]))
  }

  /** `row["completed"].lower() == "true"`: the cell spells "true" in any mix of
      upper and lower case; every other cell, the empty one included, is false. */
  function ParseBool(cell: string): (b: bool)
    ensures b <==> |cell| == 4 && cell[0] in "tT" && cell[1] in "rR" && cell[2] in "uU" && cell[3] in "eE"
  {
    var l := Lower(cell);
    assert |cell| == 4 ==> (l == "true" <==> l[0] == 't' && l[1] == 'r' && l[2] == 'u' && l[3] == 'e');
    l == "true"
  }

  /** `str(b)` as the CSV writer emits it: a cell the reader maps back to `b`. */
  function BoolCell(b: bool): (cell: string)
    ensures ParseBool(cell) == b
    ensures |cell| >= 4 && cell[0] == (if b then 'T' else 'F')
  {
    if b then "True" else "False"
  }

  /** Writing a bool and reading it back gives the same bool. */
  lemma BoolRoundTrip(b: bool)
    ensures ParseBool(BoolCell(b)) == b
  {
  }

  // ---------------------------------------------------------------------------
  // The `estimated_time` cell (and `id`, once the id is coerced too)

  predicate IsDigit(c: char)
  {
    '0' <= c <= '9'
  }

  predicate AllDigits(s: string)
  {
    forall i :: 0 <= i < |s| ==> IsDigit(s[i])
  }

  function DigitChar(d: nat): (c: char)
    requires d < 10
    ensures IsDigit(c)
  {
    ('0' as int + d) as char
  }

  function DigitValue(c: char): (d: nat)
    requires IsDigit(c)
    ensures d < 10 && DigitChar(d) == c
  {
    c as int - '0' as int
  }

  /** The number a string of decimal digits denotes. */
  function DigitsValue(s: string): nat
    requires AllDigits(s)
  {
    if |s| == 0 then 0
    else DigitsValue(s[..|s| - 1]) * 10 + DigitValue(s[|s| - 1])
  }

  /** `str(n)` for a non-negative `n`: decimal digits, no leading zero. */
  function NatToString(n: nat): (s: string)
    ensures |s| >= 1 && AllDigits(s)
    ensures s[0] == '0' ==> n == 0 && s == "0"
  {
    if n < 10 then [DigitChar(n)]
    else NatToString(n / 10) + [DigitChar(n % 10)]
  }

  /** `str(n)` for any integer: a minus sign exactly when `n` is negative,
      then the digits of its magnitude with no leading zero. */
  function IntToString(n: int): (s: string)
    ensures |s| >= 1
    ensures n >= 0 <==> AllDigits(s)
    ensures n < 0 ==> |s| >= 2 && s[0] == '-' && AllDigits(s[1..]) && s[1] != '0'
    ensures s[0] == '0' ==> n == 0 && s == "0"
  {
    if n < 0 then
      var s := "-" + NatToString(-n);
      assert !IsDigit(s[0]) && s[1..] == NatToString(-n);
      s
    else NatToString(n)
  }

  /** `int(cell)`: an optional sign followed by one or more decimal digits;
      anything else is the `ValueError` the import aborts on. */
  function ParseInt(cell: string): (r: Option<int>)
    ensures r.Some? <==>
      (|cell| > 0 && AllDigits(cell)) ||
      (|cell| > 1 && (cell[0] == '-' || cell[0] == '+') && AllDigits(cell[1..]))
    ensures r.Some? && AllDigits(cell) ==> r.value == DigitsValue(cell)
    ensures r.Some? && !AllDigits(cell) && cell[0] == '+' ==> r.value == DigitsValue(cell[1..])
    ensures r.Some? && !AllDigits(cell) && cell[0] == '-' ==> r.value == -(DigitsValue(cell[1..]) as int)
  {
    if |cell| > 0 && AllDigits(cell) then Some(DigitsValue(cell))
    else if |cell| > 1 && cell[0] == '-' && AllDigits(cell[1..]) then Some(-(DigitsValue(cell[1..]) as int))
    else if |cell| > 1 && cell[0] == '+' && AllDigits(cell[1..]) then Some(DigitsValue(cell[1..]))
    else None
  }

  /** Leading zeros do not change a digit string's value. */
  lemma {:induction false} LeadingZeroValue(s: string)
    requires AllDigits(s)
    ensures AllDigits("0" + s) && DigitsValue("0" + s) == DigitsValue(s)
  {
    var z := "0" + s;
    assert forall i :: 1 <= i < |z| ==> z[i] == s[i - 1];
    if |s| == 0 {
      assert z[..0] == "";
    } else {
      var init := s[..|s| - 1];
      assert z[..|z| - 1] == "0" + init;
      assert z[|z| - 1] == s[|s| - 1];
      LeadingZeroValue(init);
    }
  }

  /** `int` reads decimal whatever the cell's shape: a leading zero, a plus sign
      or a minus sign in front of a digit string give its value, the same value
      and the negated value. */
  lemma ParseIntSignsAndZeros(s: string)
    requires |s| > 0 && AllDigits(s)
    ensures ParseInt(s) == Some(DigitsValue(s) as int)
    ensures ParseInt("0" + s) == ParseInt(s)
    ensures ParseInt("+" + s) == ParseInt(s)
    ensures ParseInt("-" + s) == Some(-(DigitsValue(s) as int))
  {
    ZeroPrefixedCell(s);
    PlusCell(s);
    MinusCell(s);
  }

  lemma ZeroPrefixedCell(s: string)
    requires |s| > 0 && AllDigits(s)
    ensures ParseInt(s) == Some(DigitsValue(s) as int)
    ensures ParseInt("0" + s) == Some(DigitsValue(s) as int)
  {
    LeadingZeroValue(s);
  }

  lemma PlusCell(s: string)
    requires |s| > 0 && AllDigits(s)
    ensures ParseInt("+" + s) == Some(DigitsValue(s) as int)
  {
    var cell := "+" + s;
    assert cell[0] == '+' && cell[1..] == s;
    assert !IsDigit(cell[0]);
  }

  lemma MinusCell(s: string)
    requires |s| > 0 && AllDigits(s)
    ensures ParseInt("-" + s) == Some(-(DigitsValue(s) as int))
  {
    var cell := "-" + s;
    assert cell[0] == '-' && cell[1..] == s;
    assert !IsDigit(cell[0]);
  }

  lemma {:induction false} NatRoundTrip(n: nat)
    ensures DigitsValue(NatToString(n)) == n
  {
    if n >= 10 {
      var s := NatToString(n);
      assert s[..|s| - 1] == NatToString(n / 10);
      NatRoundTrip(n / 10);
    }
  }

  /** Writing an integer and reading it back gives the same integer. */
  lemma IntRoundTrip(n: int)
    ensures ParseInt(IntToString(n)) == Some(n)
  {
    if n < 0 {
      var d := NatToString(-n);
      var s := IntToString(n);
      assert s == "-" + d;
      assert s[0] == '-' && s[1..] == d;
      assert !AllDigits(s) by { assert !IsDigit(s[0]); }
      NatRoundTrip(-n);
      assert ParseInt(s) == Some(-(DigitsValue(d) as int));
    } else {
      NatRoundTrip(n);
    }
  }

  // ---------------------------------------------------------------------------
  // Rows

  /** One CSV data line, keyed by the header's columns. */
  datatype Row = Row(
    id: string,
    title: string,
    description: string,
    deadline: int,
    estimatedTime: string,
    importance: string,
    completed: string)

  /** `str` of the object held in `id`. */
  function IdCell(id: TaskId): string
  {
    match id
    case IntId(n) => IntToString(n)
    case TextId(s) => s
  }

  /** The row `export_tasks_to_csv` writes for a task. */
  function ExportRow(t: Task): (r: Row)
    ensures t.id.IntId? ==> ParseInt(r.id) == Some(t.id.n)
    ensures t.id.TextId? ==> r.id == t.id.s
    ensures ParseInt(r.estimatedTime) == Some(t.estimatedTime)
    ensures ParseBool(r.completed) == t.completed
    ensures r.title == t.title && r.description == t.description
    ensures r.deadline == t.deadline && r.importance == t.importance
  {
    IntRoundTrip(if t.id.IntId? then t.id.n else 0);
    IntRoundTrip(t.estimatedTime);
    BoolRoundTrip(t.completed);
    Row(IdCell(t.id), t.title, t.description, t.deadline,
        IntToString(t.estimatedTime), t.importance, BoolCell(t.completed))
  }

  function ExportRows(ts: seq<Task>): (rows: seq<Row>)
    ensures |rows| == |ts|
    ensures forall i :: 0 <= i < |ts| ==> rows[i] == ExportRow(ts[i])
  {
    seq(|ts|, i requires 0 <= i < |ts| => ExportRow(ts[i]))
  }

  /** The task `import_tasks_from_csv` builds from a row, as written: it
      coerces `estimated_time` and `completed` but leaves `id` as the cell's
      text. A non-numeric `estimated_time` aborts. */
  function ImportRowAsWritten(r: Row): (t: Option<Task>)
    ensures t.Some? <==> ParseInt(r.estimatedTime).Some?
    ensures t.Some? ==> t.value.id == TextId(r.id)
    ensures t.Some? ==> Some(t.value.estimatedTime) == ParseInt(r.estimatedTime)
    ensures t.Some? ==> t.value.completed == ParseBool(r.completed)
    ensures t.Some? ==> t.value.title == r.title && t.value.description == r.description
    ensures t.Some? ==> t.value.deadline == r.deadline && t.value.importance == r.importance
  {
    match ParseInt(r.estimatedTime)
    case None => None
    case Some(e) =>
      Some(Task(TextId(r.id), r.title, r.description, r.deadline, e, r.importance, ParseBool(r.completed)))
  }

  /** The import with `id` coerced by `int(...)` like `estimated_time`; a
      non-numeric id or estimated time aborts. */
  function ImportRow(r: Row): (t: Option<Task>)
    ensures t.Some? <==> ParseInt(r.id).Some? && ParseInt(r.estimatedTime).Some?
    ensures t.Some? ==> t.value.id.IntId? && Some(t.value.id.n) == ParseInt(r.id)
    ensures t.Some? ==> Some(t.value.estimatedTime) == ParseInt(r.estimatedTime)
    ensures t.Some? ==> t.value.completed == ParseBool(r.completed)
    ensures t.Some? ==> t.value.title == r.title && t.value.description == r.description
    ensures t.Some? ==> t.value.deadline == r.deadline && t.value.importance == r.importance
  {
    match (ParseInt(r.id), ParseInt(r.estimatedTime))
    case (Some(n), Some(e)) =>
      Some(Task(IntId(n), r.title, r.description, r.deadline, e, r.importance, ParseBool(r.completed)))
    case _ => None
  }

  /** Reading every row of a file: one bad row rejects the whole file, and a
      file with only the header yields no tasks. */
  function ImportAll(rows: seq<Row>, importRow: Row -> Option<Task>): (r: Option<seq<Task>>)
    ensures |rows| == 0 ==> r == Some([])
    ensures r.Some? <==> forall i :: 0 <= i < |rows| ==> importRow(rows[i]).Some?
    ensures r.Some? ==> |r.value| == |rows|
    ensures r.Some? ==> forall i :: 0 <= i < |rows| ==> Some(r.value[i]) == importRow(rows[i])
  {
    if |rows| == 0 then Some([])
    else
      match (importRow(rows[0]), ImportAll(rows[1..], importRow))
      case (Some(t), Some(rest)) =>
        assert forall i :: 1 <= i < |rows| ==> rows[i] == rows[1..][i - 1];
        Some([t] + rest)
      case (None, _) => None
      case (_, None) =>
        assert rows[1..][0] == rows[1];
        assert forall i :: 1 <= i < |rows| ==> rows[i] == rows[1..][i - 1];
        None
  }

  /** `import_tasks_from_csv` as written: all rows or nothing, each row read
      by `ImportRowAsWritten`. */
  function ImportTasksAsWritten(rows: seq<Row>): (r: Option<seq<Task>>)
    ensures |rows| == 0 ==> r == Some([])
    ensures r.Some? <==> forall i :: 0 <= i < |rows| ==> ParseInt(rows[i].estimatedTime).Some?
    ensures r.Some? ==> |r.value| == |rows|
    ensures r.Some? ==> forall i :: 0 <= i < |rows| ==> Some(r.value[i]) == ImportRowAsWritten(rows[i])
    ensures r.Some? ==> forall i :: 0 <= i < |rows| ==> r.value[i].id == TextId(rows[i].id)
  {
    ImportAll(rows, ImportRowAsWritten)
  }

  /** `import_tasks_from_csv` with the id coerced: all rows or nothing, each
      row read by `ImportRow`. */
  function ImportTasks(rows: seq<Row>): (r: Option<seq<Task>>)
    ensures |rows| == 0 ==> r == Some([])
    ensures r.Some? <==> forall i :: 0 <= i < |rows| ==>
      ParseInt(rows[i].id).Some? && ParseInt(rows[i].estimatedTime).Some?
    ensures r.Some? ==> |r.value| == |rows|
    ensures r.Some? ==> forall i :: 0 <= i < |rows| ==> Some(r.value[i]) == ImportRow(rows[i])
  {
    ImportAll(rows, ImportRow)
  }

  /** With the id coerced, exporting tasks with integer ids and importing the
      rows gives back the same tasks, field for field, in the same order. */
  lemma CsvRoundTrip(ts: seq<Task>)
    requires forall i :: 0 <= i < |ts| ==> ts[i].id.IntId?
    ensures ImportTasks(ExportRows(ts)) == Some(ts)
  {
    var rows := ExportRows(ts);
    forall i | 0 <= i < |ts|
      ensures ImportRow(rows[i]) == Some(ts[i])
    {
      var t := ts[i];
      assert rows[i] == ExportRow(t);
      assert ParseInt(rows[i].id) == Some(t.id.n);
      assert ParseInt(rows[i].estimatedTime) == Some(t.estimatedTime);
    }
    var r := ImportTasks(rows);
    assert r.Some?;
    assert forall i :: 0 <= i < |ts| ==> r.value[i] == ts[i];
    assert r.value == ts;
  }

  /** Hand-edited cells as `int` and `lower() == "true"` read them: leading
      zeros and a plus sign are accepted, the flag is read in any letter case,
      and a non-numeric estimate rejects the row. */
  lemma ImportHandEditedRow()
    ensures ImportRow(Row("007", "a", "b", 0, "+5", "high", "TRUE"))
      == Some(Task(IntId(7), "a", "b", 0, 5, "high", true))
    ensures ImportRow(Row("3", "a", "b", 0, "-2", "low", "yes"))
      == Some(Task(IntId(3), "a", "b", 0, -2, "low", false))
    ensures ImportRow(Row("3", "a", "b", 0, "2.5", "low", "True")) == None
    ensures ImportRowAsWritten(Row("007", "a", "b", 0, "+5", "high", "tRuE"))
      == Some(Task(TextId("007"), "a", "b", 0, 5, "high", true))
  {
    assert DigitsValue("007") == 7 by {
      assert "007"[..2] == "00" && "00"[..1] == "0" && "0"[..0] == "";
    }
    assert "+5"[1..] == "5" && DigitsValue("5") == 5 by { assert "5"[..0] == ""; }
    assert "-2"[1..] == "2" && DigitsValue("2") == 2 by { assert "2"[..0] == ""; }
    assert DigitsValue("3") == 3 by { assert "3"[..0] == ""; }
    assert !AllDigits("2.5") by { assert !IsDigit("2.5"[1]); }
    assert !AllDigits("+5") by { assert !IsDigit("+5"[0]); }
    assert !AllDigits("-2") by { assert !IsDigit("-2"[0]); }
  }

  /** As written, a re-imported task carries its id as text: every other field
      survives, but the id no longer equals the integer it was exported from,
      so deleting that integer id afterwards leaves the imported task in place. */
  lemma CsvImportLosesIntegerIds(t: Task, ts: seq<Task>)
    requires t.id.IntId?
    ensures ImportRowAsWritten(ExportRow(t)) == Some(t.(id := TextId(IntToString(t.id.n))))
    ensures ImportRowAsWritten(ExportRow(t)) != Some(t)
    ensures var u := ImportRowAsWritten(ExportRow(t)).value;
      Registry.Delete(ts + [u], t.id) == Registry.Delete(ts, t.id) + [u]
  {
    var u := ImportRowAsWritten(ExportRow(t)).value;
    Registry.DeleteKeepsOrder(ts, [u], t.id);
  }

  /** The concrete case: task 1 exported and re-imported comes back as task
      "1", which `delete_task(1)` does not remove. */
  lemma CsvImportIdExample()
    ensures var t := Task(IntId(1), "a", "", 0, 1, "high", false);
      var u := ImportRowAsWritten(ExportRow(t)).value;
      u.id == TextId("1") && Registry.Delete([u], IntId(1)) == [u]
  {
    var t := Task(IntId(1), "a", "", 0, 1, "high", false);
    CsvImportLosesIntegerIds(t, []);
    assert IntToString(1) == "1";
  }
}

=== FILE: options.dfy ===
/** The absent-or-present value used for lookups and parses that can fail. */
module Options {

  datatype Option<+T> = None | Some(value: T)
}

=== FILE: priority.dfy ===
/** The priority scorer (`calculate_priority` in Project/project.py): a base by
    importance, an urgency term that grows as the deadline nears, and a bonus
    for quick tasks. The current time is a parameter. */
module Priority {
  import opened Tasks

  /** Base score: "high" 50, "medium" 30, any other string 10. */
  function BaseScore(importance: string): int
  {
    if importance == "high" then 50
    else if importance == "medium" then 30
    else 10
  }

  /** `(deadline - now).days`: whole days to the deadline, rounded toward minus
      infinity, so a deadline one microsecond past is day -1. */
  function DaysToDeadline(deadline: int, now: int): (d: int)
    ensures d * MicrosPerDay <= deadline * MicrosPerMinute - now < (d + 1) * MicrosPerDay
  {
    (deadline * MicrosPerMinute - now) / MicrosPerDay
  }

  /** `max(0, 40 - days)`. */
  function Urgency(days: int): int
  {
    if 40 - days > 0 then 40 - days else 0
  }

  /** The bonus for a task estimated at under two hours. */
  function QuickBonus(estimatedTime: int): int
  {
    if estimatedTime < 2 then 10 else 0
  }

  /** `calculate_priority(task)` evaluated at instant `now`. */
  function Score(t: Task, now: int): (r: int)
    ensures r >= 10
    ensures t.importance == "high" ==> r >= 50
    ensures t.importance == "medium" ==> r >= 30
    ensures DeadlineInstant(t) >= now ==> r <= 100
    ensures DeadlineInstant(t) >= now + 40 * MicrosPerDay ==> r <= 60
    ensures DeadlineInstant(t) < now ==> r >= 51
  {
    BaseScore(t.importance) + Urgency(DaysToDeadline(t.deadline, now)) + QuickBonus(t.estimatedTime)
  }

  /** Whole days are monotone in the deadline. */
  lemma DaysMonotone(d1: int, d2: int, now: int)
    requires d1 <= d2
    ensures DaysToDeadline(d1, now) <= DaysToDeadline(d2, now)
  {
  }

  /** Moving a deadline later, all else fixed, never raises the score. */
  lemma ScoreMonotoneInDeadline(t: Task, later: int, now: int)
    requires t.deadline <= later
    ensures Score(t.(deadline := later), now) <= Score(t, now)
  {
    DaysMonotone(t.deadline, later, now);
  }

  /** The urgency term vanishes once the deadline is forty or more whole days
      away: beyond that point the score no longer depends on the deadline. */
  lemma ScoreFlatBeyondFortyDays(t: Task, later: int, now: int)
    requires t.deadline <= later
    requires DaysToDeadline(t.deadline, now) >= 40
    ensures Score(t.(deadline := later), now) == Score(t, now)
  {
    DaysMonotone(t.deadline, later, now);
  }

  /** The urgency term is not capped at 40: each whole day overdue adds one. */
  lemma ScoreGrowsWhenOverdue(t: Task, k: nat, now: int)
    requires DeadlineInstant(t) == now
    ensures Score(t.(deadline := t.deadline - k * 1440), now) == Score(t, now) + k
  {
    var earlier := t.(deadline := t.deadline - k * 1440);
    assert DeadlineInstant(earlier) - now == -(k as int) * MicrosPerDay;
    assert DaysToDeadline(earlier.deadline, now) == -(k as int);
    assert DaysToDeadline(t.deadline, now) == 0;
  }

  /** Moving the deadline one day earlier moves the whole-day count down by
      exactly one, so the urgency term `max(0, 40 - days)` rises by exactly one
      point while the deadline is at most 40 days away, and not at all beyond. */
  lemma ScoreStepPerDay(t: Task, now: int)
    ensures DaysToDeadline(t.deadline - 1440, now) == DaysToDeadline(t.deadline, now) - 1
    ensures Score(t.(deadline := t.deadline - 1440), now)
      == Score(t, now) + (if DaysToDeadline(t.deadline, now) <= 40 then 1 else 0)
  {
    var d := DaysToDeadline(t.deadline, now);
    assert (t.deadline - 1440) * MicrosPerMinute - now == t.deadline * MicrosPerMinute - now - MicrosPerDay;
    assert (d - 1) * MicrosPerDay <= (t.deadline - 1440) * MicrosPerMinute - now < d * MicrosPerDay;
  }

  /** A task due exactly now outscores the same task due sixty days later by 40. */
  lemma ScoreDueNowVersusSixtyDays(t: Task, now: int)
    requires DeadlineInstant(t) == now
    ensures Score(t, now) == Score(t.(deadline := t.deadline + 60 * 1440), now) + 40
  {
    var later := t.(deadline := t.deadline + 60 * 1440);
    assert DeadlineInstant(later) - now == 60 * MicrosPerDay;
    assert DaysToDeadline(later.deadline, now) == 60;
    assert DaysToDeadline(t.deadline, now) == 0;
  }

  /** A high-importance one-hour task due today, at or after now, scores 100. */
  lemma ScoreHighQuickDueToday(t: Task, now: int)
    requires t.importance == "high" && t.estimatedTime == 1
    requires now <= DeadlineInstant(t) < now + MicrosPerDay
    ensures Score(t, now) == 100
  {
    assert DaysToDeadline(t.deadline, now) == 0;
  }

  /** Importance only shifts the score by the difference of the bases. */
  lemma ScoreByImportance(t: Task, now: int)
    ensures Score(t.(importance := "high"), now) == Score(t.(importance := "medium"), now) + 20
    ensures Score(t.(importance := "medium"), now) == Score(t.(importance := "low"), now) + 20
    ensures t.importance != "high" && t.importance != "medium" ==>
      Score(t, now) == Score(t.(importance := "low"), now)
  {
  }

  /** The quick-task bonus is exactly 10 and applies below two hours only. */
  lemma ScoreQuickBonus(t: Task, now: int)
    ensures Score(t.(estimatedTime := 1), now) == Score(t.(estimatedTime := 2), now) + 10
    ensures t.estimatedTime < 2 ==> Score(t, now) == Score(t.(estimatedTime := 1), now)
    ensures t.estimatedTime >= 2 ==> Score(t, now) == Score(t.(estimatedTime := 2), now)
  {
  }
}

=== FILE: registry.dfy ===
/** The task registry (`ToDoList` in Project/project.py) as pure functions on
    the ordered sequence of tasks it holds. The registry does not keep ids
    unique: every operation below is specified for arbitrary sequences,
    duplicates included. */
module Registry {
  import opened Options
  import opened Seqs
  import opened Tasks

  /** `add_task`: append at the end. */
  function Add(ts: seq<Task>, t: Task): (r: seq<Task>)
    ensures |r| == |ts| + 1
    ensures r[..|ts|] == ts && r[|ts|] == t
  {
    ts + [t]
  }

  /** The position at which a front-to-back scan for `id` stops. */
  function FirstIndex(ts: seq<Task>, id: TaskId): (r: Option<nat>)
    ensures r.None? <==> forall i :: 0 <= i < |ts| ==> ts[i].id != id
    ensures r.Some? ==> r.value < |ts| && ts[r.value].id == id
    ensures r.Some? ==> forall j :: 0 <= j < r.value ==> ts[j].id != id
  {
    if |ts| == 0 then None
    else if ts[0].id == id then Some(0)
    else
      match FirstIndex(ts[1..], id)
      case None => None
      case Some(i) => Some(i + 1)
  }

  /** `edit_task(id, u)`: the scan over the list stops at the first task with
      that id and puts `u` in its place; a miss leaves the list alone. */
  function Edit(ts: seq<Task>, id: TaskId, u: Task): (r: seq<Task>)
    ensures |r| == |ts|
    ensures FirstIndex(ts, id).None? ==> r == ts
    ensures FirstIndex(ts, id).Some? ==> r == ts[FirstIndex(ts, id).value := u]
  {
    if |ts| == 0 then []
    else if ts[0].id == id then [u] + ts[1..]
    else [ts[0]] + Edit(ts[1..], id, u)
  }

  /** An edit whose replacement carries the id it was looked up by (as the menu
      always builds it) keeps every position's id, and changes at most one
      position. */
  lemma EditKeepsIds(ts: seq<Task>, id: TaskId, u: Task)
    requires u.id == id
    ensures forall i :: 0 <= i < |ts| ==> Edit(ts, id, u)[i].id == ts[i].id
    ensures forall i, j :: 0 <= i < j < |ts| ==> Edit(ts, id, u)[i] == ts[i] || Edit(ts, id, u)[j] == ts[j]
  {
  }

  /** The test `delete_task` keeps a task by. */
  function IdIsNot(id: TaskId): Task -> bool
  {
    (t: Task) => t.id != id
  }

  /** The test for "this task has that id". */
  function HasId(id: TaskId): Task -> bool
  {
    (t: Task) => t.id == id
  }

  /** `delete_task(id)`: drop every task with that id. */
  function Delete(ts: seq<Task>, id: TaskId): (r: seq<Task>)
    ensures forall t :: t in r ==> t in ts && t.id != id
    ensures forall t :: t in ts && t.id != id ==> t in r
    ensures (forall i :: 0 <= i < |ts| ==> ts[i].id != id) ==> r == ts
  {
    Filter(ts, IdIsNot(id))
  }

  /** The survivors keep their relative order, the deletion distributes over
      concatenation, and exactly the matching tasks are lost. */
  lemma DeleteKeepsOrder(a: seq<Task>, b: seq<Task>, id: TaskId)
    ensures IsSubsequence(Delete(a, id), a)
    ensures Delete(a + b, id) == Delete(a, id) + Delete(b, id)
    ensures |Delete(a, id)| == |a| - Count(a, HasId(id))
  {
    FilterIsSubsequence(a, IdIsNot(id));
    FilterAppend(a, b, IdIsNot(id));
    CountIsFilterLength(a, IdIsNot(id));
    CountPartition(a, IdIsNot(id), HasId(id), (_: Task) => false);
  }

  /** Deleting is idempotent, and deleting the id of a task just added removes
      that task and whatever else carried the id, nothing more. */
  lemma DeleteAfterAdd(ts: seq<Task>, t: Task)
    ensures Delete(Delete(ts, t.id), t.id) == Delete(ts, t.id)
    ensures Delete(Add(ts, t), t.id) == Delete(ts, t.id)
  {
    FilterAppend(ts, [t], IdIsNot(t.id));
  }

  /** The test `view_tasks` filters by. */
  function ImportanceIs(level: string): Task -> bool
  {
    (t: Task) => t.importance == level
  }

  /** `view_tasks(filter_by)`: the whole list when the filter is `None` or the
      empty string (both falsy), otherwise the tasks whose importance is
      exactly the filter string. */
  function View(ts: seq<Task>, filter: Option<string>): (r: seq<Task>)
    ensures filter == None || filter == Some("") ==> r == ts
    ensures filter.Some? && filter.value != "" ==>
      (forall t :: t in r <==> t in ts && t.importance == filter.value)
    ensures IsSubsequence(r, ts)
  {
    if filter.Some? && filter.value != "" then
      FilterIsSubsequence(ts, ImportanceIs(filter.value));
      Filter(ts, ImportanceIs(filter.value))
    else
      FilterIsSubsequence(ts, (_: Task) => true);
      ts
  }

  /** A filtered view of a concatenation is the concatenation of the views. */
  lemma ViewAppend(a: seq<Task>, b: seq<Task>, filter: Option<string>)
    ensures View(a + b, filter) == View(a, filter) + View(b, filter)
  {
    if filter.Some? && filter.value != "" {
      FilterAppend(a, b, ImportanceIs(filter.value));
    }
  }

  /** The menu's "mark as completed": the scan stops at the first task with the
      id and marks it; a miss leaves the list alone. */
  function MarkCompletedById(ts: seq<Task>, id: TaskId): (r: seq<Task>)
    ensures |r| == |ts|
    ensures FirstIndex(ts, id).None? ==> r == ts
    ensures FirstIndex(ts, id).Some? ==>
      var i := FirstIndex(ts, id).value;
      r == ts[i := MarkCompleted(ts[i])]
  {
    if |ts| == 0 then []
    else if ts[0].id == id then [MarkCompleted(ts[0])] + ts[1..]
    else [ts[0]] + MarkCompletedById(ts[1..], id)
  }

  /** Marking by id is an edit that puts the marked task in place. */
  lemma MarkCompletedByIdIsEdit(ts: seq<Task>, id: TaskId)
    requires FirstIndex(ts, id).Some?
    ensures MarkCompletedById(ts, id) == Edit(ts, id, MarkCompleted(ts[FirstIndex(ts, id).value]))
  {
  }
}

=== FILE: seqs.dfy ===
/** Sequence helpers shared by the task list: the two comprehension shapes it
    uses, `[x for x in s if keep(x)]` (Filter) and `sum(1 for x in s if p(x))`
    (Count), together with the facts the registry and the statistics rely on. */
module Seqs {

  /** `a` is `b` with some elements dropped and the rest kept in their order. */
  ghost predicate IsSubsequence<T>(a: seq<T>, b: seq<T>)
    decreases |b|
  {
    if |a| == 0 then true
    else if |b| == 0 then false
    else (a[0] == b[0] && IsSubsequence(a[1..], b[1..])) || IsSubsequence(a, b[1..])
  }

  /** The elements of `s` that satisfy `keep`, in their original order. */
  function Filter<T>(s: seq<T>, keep: T -> bool): (r: seq<T>)
    ensures |r| <= |s|
    ensures forall x :: x in r ==> x in s && keep(x)
    ensures forall x :: x in s && keep(x) ==> x in r
    ensures (forall i :: 0 <= i < |s| ==> keep(s[i])) ==> r == s
  {
    if |s| == 0 then []
    else
      assert forall x :: x in s ==> x == s[0] || x in s[1..];
      (if keep(s[0]) then [s[0]] else []) + Filter(s[1..], keep)
  }

  /** Filtering distributes over concatenation; together with the one-element
      case this pins the result down completely. */
  lemma {:induction false} FilterAppend<T>(a: seq<T>, b: seq<T>, keep: T -> bool)
    ensures Filter(a + b, keep) == Filter(a, keep) + Filter(b, keep)
  {
    if |a| == 0 {
      assert a + b == b;
    } else {
      assert (a + b)[1..] == a[1..] + b;
      FilterAppend(a[1..], b, keep);
    }
  }

  /** The survivors of a filter appear in `s` in the same relative order. */
  lemma {:induction false} FilterIsSubsequence<T>(s: seq<T>, keep: T -> bool)
    ensures IsSubsequence(Filter(s, keep), s)
  {
    if |s| > 0 {
      FilterIsSubsequence(s[1..], keep);
      if keep(s[0]) {
        assert Filter(s, keep) == [s[0]] + Filter(s[1..], keep);
        assert Filter(s, keep)[1..] == Filter(s[1..], keep);
      } else {
        assert Filter(s, keep) == Filter(s[1..], keep);
        SkipHeadKeepsSubsequence(Filter(s, keep), s);
      }
    }
  }

  lemma SkipHeadKeepsSubsequence<T>(a: seq<T>, b: seq<T>)
    requires |b| > 0 && IsSubsequence(a, b[1..])
    ensures IsSubsequence(a, b)
  {
  }

  /** How many elements of `s` satisfy `p`. */
  function Count<T>(s: seq<T>, p: T -> bool): (n: nat)
    ensures n <= |s|
    ensures n == 0 <==> forall i :: 0 <= i < |s| ==> !p(s[i])
    ensures n == |s| <==> forall i :: 0 <= i < |s| ==> p(s[i])
  {
    if |s| == 0 then 0
    else
      assert forall i :: 1 <= i < |s| ==> s[i] == s[1..][i - 1];
      (if p(s[0]) then 1 else 0) + Count(s[1..], p)
  }

  /** Counting the matches is measuring the filtered sequence. */
  lemma {:induction false} CountIsFilterLength<T>(s: seq<T>, p: T -> bool)
    ensures Count(s, p) == |Filter(s, p)|
  {
    if |s| > 0 {
      CountIsFilterLength(s[1..], p);
    }
  }

  lemma {:induction false} CountAppend<T>(a: seq<T>, b: seq<T>, p: T -> bool)
    ensures Count(a + b, p) == Count(a, p) + Count(b, p)
  {
    if |a| == 0 {
      assert a + b == b;
    } else {
      assert (a + b)[1..] == a[1..] + b;
      CountAppend(a[1..], b, p);
    }
  }

  /** When every element satisfies exactly one of three tests, the three counts
      add up to the length. */
  lemma {:induction false} CountPartition<T>(s: seq<T>, a: T -> bool, b: T -> bool, c: T -> bool)
    requires forall x :: (a(x) || b(x) || c(x)) && !(a(x) && b(x)) && !(a(x) && c(x)) && !(b(x) && c(x))
    ensures Count(s, a) + Count(s, b) + Count(s, c) == |s|
  {
    if |s| > 0 {
      CountPartition(s[1..], a, b, c);
    }
  }

  /** Replacing one element changes a count by the difference the two elements
      make on their own. */
  lemma {:induction false} CountUpdate<T>(s: seq<T>, i: nat, x: T, p: T -> bool)
    requires i < |s|
    ensures Count(s[i := x], p) == Count(s, p) - (if p(s[i]) then 1 else 0) + (if p(x) then 1 else 0)
  {
    if i == 0 {
      assert s[i := x][1..] == s[1..];
    } else {
      assert s[i := x][1..] == s[1..][i - 1 := x];
      CountUpdate(s[1..], i - 1, x, p);
    }
  }

  /** Filtering first can only lower a count. */
  lemma {:induction false} CountFilterAtMost<T>(s: seq<T>, keep: T -> bool, p: T -> bool)
    ensures Count(Filter(s, keep), p) <= Count(s, p)
  {
    if |s| > 0 {
      CountFilterAtMost(s[1..], keep, p);
      if keep(s[0]) {
        var f := Filter(s, keep);
        assert f == [s[0]] + Filter(s[1..], keep);
        assert f[0] == s[0] && f[1..] == Filter(s[1..], keep);
      } else {
        assert Filter(s, keep) == Filter(s[1..], keep);
      }
    }
  }
}

=== FILE: statistics.dfy ===
/** The statistics aggregation: `ToDoList.get_statistics` and the counting half
    of `plot_statistics` in Project/project.py. Each task falls in exactly one
    of three classes at instant `now`: completed, overdue (not completed and
    its deadline already passed) or pending (everything else). */
module Statistics {
  import opened Seqs
  import opened Tasks
  import Registry

  predicate IsOverdue(t: Task, now: int)
  {
    !t.completed && DeadlineInstant(t) < now
  }

  predicate IsPending(t: Task, now: int)
  {
    !t.completed && DeadlineInstant(t) >= now
  }

  function Completed(): Task -> bool
  {
    (t: Task) => t.completed
  }

  function Overdue(now: int): Task -> bool
  {
    (t: Task) => IsOverdue(t, now)
  }

  function Pending(now: int): Task -> bool
  {
    (t: Task) => IsPending(t, now)
  }

  /** The dictionary `get_statistics` returns. */
  datatype Stats = Stats(completed: nat, overdue: nat, total: nat)

  /** `get_statistics()` at instant `now`: completed and overdue never overlap,
      so together they never exceed the total. */
  function GetStatistics(ts: seq<Task>, now: int): (s: Stats)
    ensures s.total == |ts|
    ensures s.completed + s.overdue <= s.total
    ensures s.completed == 0 <==> forall i :: 0 <= i < |ts| ==> !ts[i].completed
    ensures s.overdue == 0 <==> forall i :: 0 <= i < |ts| ==> !IsOverdue(ts[i], now)
  {
    CountPartition(ts, Completed(), Overdue(now), Pending(now));
    Stats(Count(ts, Completed()), Count(ts, Overdue(now)), |ts|)
  }

  /** The three slice sizes `plot_statistics` hands to the chart. */
  datatype PieCounts = PieCounts(completed: int, overdue: int, pending: int)

  /** `plot_statistics` counting: pending is derived by subtraction, yet it is
      never negative and is exactly the number of pending tasks; the three
      slices add up to the number of tasks. */
  function PlotCounts(ts: seq<Task>, now: int): (c: PieCounts)
    ensures c.pending >= 0
    ensures c.completed + c.overdue + c.pending == |ts|
    ensures c.pending == Count(ts, Pending(now))
    ensures c.completed == GetStatistics(ts, now).completed
    ensures c.overdue == GetStatistics(ts, now).overdue
  {
    var completed := Count(ts, Completed());
    var overdue := Count(ts, Overdue(now));
    CountPartition(ts, Completed(), Overdue(now), Pending(now));
    PieCounts(completed, overdue, |ts| - completed - overdue)
  }

  /** Adding a task moves exactly one counter by one, besides the total. */
  lemma StatisticsAfterAdd(ts: seq<Task>, t: Task, now: int)
    ensures GetStatistics(Registry.Add(ts, t), now).total == GetStatistics(ts, now).total + 1
    ensures GetStatistics(Registry.Add(ts, t), now).completed
      == GetStatistics(ts, now).completed + (if t.completed then 1 else 0)
    ensures GetStatistics(Registry.Add(ts, t), now).overdue
      == GetStatistics(ts, now).overdue + (if IsOverdue(t, now) then 1 else 0)
  {
    CountAppend(ts, [t], Completed());
    CountAppend(ts, [t], Overdue(now));
  }

  /** Marking by id adds one completed task when the first match was still open
      (and removes it from overdue if it was overdue); otherwise nothing moves. */
  lemma StatisticsAfterMarkCompleted(ts: seq<Task>, id: TaskId, now: int)
    ensures var before, after := GetStatistics(ts, now), GetStatistics(Registry.MarkCompletedById(ts, id), now);
      match Registry.FirstIndex(ts, id)
      case None => after == before
      case Some(i) =>
        && after.total == before.total
        && after.completed == before.completed + (if ts[i].completed then 0 else 1)
        && after.overdue == before.overdue - (if IsOverdue(ts[i], now) then 1 else 0)
  {
    match Registry.FirstIndex(ts, id)
    case None =>
    case Some(i) =>
      CountUpdate(ts, i, MarkCompleted(ts[i]), Completed());
      CountUpdate(ts, i, MarkCompleted(ts[i]), Overdue(now));
  }

  /** Deleting shrinks the total by the number of tasks carrying the id and
      can only lower the completed and overdue counts. */
  lemma StatisticsAfterDelete(ts: seq<Task>, id: TaskId, now: int)
    ensures GetStatistics(Registry.Delete(ts, id), now).total == |ts| - Count(ts, Registry.HasId(id))
    ensures GetStatistics(Registry.Delete(ts, id), now).completed <= GetStatistics(ts, now).completed
    ensures GetStatistics(Registry.Delete(ts, id), now).overdue <= GetStatistics(ts, now).overdue
  {
    Registry.DeleteKeepsOrder(ts, [], id);
    CountFilterAtMost(ts, Registry.IdIsNot(id), Completed());
    CountFilterAtMost(ts, Registry.IdIsNot(id), Overdue(now));
  }
}

=== FILE: tasks.dfy ===
/** The task entity of the to-do application (Project/project.py, class Task). */
module Tasks {

  /** The Python object held in a task's `id` attribute. Tasks created from the
      menu hold an `int`; tasks read back from a CSV file hold the `str` cell
      unchanged. The JSON store keeps whichever kind it was given, so a task
      imported from CSV and saved still holds a `str` after reloading. Python's
      `==` never equates the two kinds, and neither does this datatype's
      equality. */
  datatype TaskId = IntId(n: int) | TextId(s: string)

  /** Clock units. A deadline is written `YYYY-MM-DD HH:MM`, so it has minute
      resolution; `datetime.now()` has microsecond resolution. */
  const MicrosPerMinute: int := 60_000_000
  const MicrosPerDay: int := 86_400_000_000

  /** One unit of work. `deadline` is the already-parsed deadline string as a
      count of minutes on the same (naive, local) clock as `now`;
      `estimatedTime` is in hours. */
  datatype Task = Task(
    id: TaskId,
    title: string,
    description: string,
    deadline: int,
    estimatedTime: int,
    importance: string,
    completed: bool)

  /** The deadline on the microsecond clock that `now` is read from. */
  function DeadlineInstant(t: Task): int
  {
    t.deadline * MicrosPerMinute
  }

  /** `Task.mark_completed`: the task is done and nothing else about it moves. */
  function MarkCompleted(t: Task): (r: Task)
    ensures r.completed
    ensures r.id == t.id && r.title == t.title && r.description == t.description
    ensures r.deadline == t.deadline && r.estimatedTime == t.estimatedTime
    ensures r.importance == t.importance
  {
    t.(completed := true)
  }

  /** Marking twice is marking once, and marking a finished task changes nothing. */
  lemma MarkCompletedIdempotent(t: Task)
    ensures MarkCompleted(MarkCompleted(t)) == MarkCompleted(t)
    ensures t.completed ==> MarkCompleted(t) == t
  {
  }
}
